=== FILE: README.md ===
# Playlist snapshot cache and reconciler, modelled in Dafny

This project models the core of a job that mirrors media-server playlists across
accounts. The core is the snapshot cache and the reconciliation decision in
`syncuserplaylist/utils/cacheplaylist.py`:

- **Cache naming** (`cache_names.dfy`, module `CacheNames`). A playlist title is
  sanitized into a file stem: each of `< > : " / \ | ? *` becomes `_`. The stem
  names four artifacts: `<stem>_cache.feather_items`, `_metadata`, `_items_old`
  and `_metadata_old`.
- **Records** (`records.dfy`, module `Records`). These are the live playlist and
  its tracks as the server hands them out, and the serialized form the cache
  stores (metadata row plus item rows). A track is identified by its rating key.
- **Snapshot store** (`snapshot_store.dfy`, module `SnapshotStore`). The cache
  directory is a `map<string, Entry>`. Every remove, rename and write the source
  performs is a pure transition of that map. A save is the sequence of states it
  passes through (`SaveTrace`), and its result is the last one. The module also
  has the two-generation read, the all-four-files existence check, snapshot
  creation and garbage collection against a keep-list.
- **Reconciler** (`reconciler.dfy`, module `Reconciler`). `Decide` is the
  three-way rule: push the cache onto the playlist, refresh the cache, or do
  nothing. It keeps Python's operator precedence and uses list lengths beside
  sets. `UpdatePlexFromCache` is the push: an add pass, a remove pass over a
  snapshot of the playlist, and a summary edit. A failed add, remove or edit is
  skipped on its own, as long as the artist lookup for its message succeeds.
  `CompareTracksToCache` loads both generations, decides and acts.

Server calls are parameters. `Resolver` is the library search by section and
rating key. `Oracle` says which add, remove and summary-edit calls succeed.
Test mode is a boolean parameter of every operation that has one in the source.

Four behaviours of `cacheplaylist.py` shape the model:

- A first save writes the new snapshot as both the current and the previous
  generation (`cacheplaylist.py:111-125`). The existence check therefore holds
  after one save (`FirstSaveWritesBothGenerations`, `BootstrapIsStable`).
- `compare_tracks_to_cache` reads both generations and indexes each right after
  reading (`cacheplaylist.py:392-409`). A missing or unreadable generation raises
  there. Only searches have run by then, and they only read, so the comparison
  stops with nothing changed. The model returns this as
  `CacheUnreadable`.
- Garbage collection removes every regular file whose name is not an artifact
  of a listed title, whether or not it is a cache file, and keeps every
  non-regular entry (`cacheplaylist.py:350-357`).
- The flag `old_summary_changed` is true when the live summary equals the old
  cached summary (`cacheplaylist.py:419`).

## Model

| member | source | states |
|---|---|---|
| CacheNames.Sanitize | syncuserplaylist/utils/cacheplaylist.py:11-20 | length is kept; each unsafe character becomes `_`; every other character stays; no unsafe character remains |
| CacheNames.SanitizeIdempotent | syncuserplaylist/utils/cacheplaylist.py:20 | sanitizing a sanitized name changes nothing |
| CacheNames.ArtifactNameInjective | syncuserplaylist/utils/cacheplaylist.py:63-70 | an artifact file name determines both its stem and which of the four artifacts it is |
| CacheNames.CacheFilesShared | syncuserplaylist/utils/cacheplaylist.py:344-348 | two titles share an artifact name iff they sanitize to the same stem, and then they share all four |
| Records.ExtractPlaylistInfo | syncuserplaylist/utils/cacheplaylist.py:22-48 | the record keeps title, summary, type and timestamp, one row per item in order with its key, section, title and type; an artist, the item's own, only for tracks |
| SnapshotStore.CheckForPlaylistCache | syncuserplaylist/utils/cacheplaylist.py:274-307 | true iff all four artifact names of the title are present |
| SnapshotStore.Save | syncuserplaylist/utils/cacheplaylist.py:51-128 | the new snapshot becomes current; the prior current becomes old, or the new snapshot when there was none; prior old files are gone; files of other names are unchanged |
| SnapshotStore.SaveCrashSafety | syncuserplaylist/utils/cacheplaylist.py:83-125 | the existence check is false at every intermediate state of a save and true at its end |
| SnapshotStore.SaveTrace | syncuserplaylist/utils/cacheplaylist.py:83-125 | the stale previous tables are gone after the first two steps, and both current tables are moved away before anything is written |
| SnapshotStore.Written | syncuserplaylist/utils/cacheplaylist.py:111-125 | one table write leaves the entry as current; the previous table keeps its content, or holds the entry too when there was none; other files are unchanged |
| SnapshotStore.Rotate | syncuserplaylist/utils/cacheplaylist.py:83-107 | after removing and renaming, no current table exists; each previous table exists iff the matching current one did and holds its content; other files are unchanged |
| SnapshotStore.CheckAfterSave | syncuserplaylist/utils/cacheplaylist.py:109-125 | after any save all four artifacts exist |
| SnapshotStore.Load | syncuserplaylist/utils/cacheplaylist.py:131-178 | nothing in test mode; outside it, a result exactly when both tables of the chosen generation exist and have the right shape, and then it holds their stored metadata and rows |
| SnapshotStore.LoadAfterSave | syncuserplaylist/utils/cacheplaylist.py:149-172 | reading the current generation after a save returns the saved title, summary, type, timestamp and rows |
| SnapshotStore.FirstSaveWritesBothGenerations | syncuserplaylist/utils/cacheplaylist.py:111-123 | a save without current tables leaves both generations reading back as the new snapshot |
| SnapshotStore.SaveRotatesCurrentToOld | syncuserplaylist/utils/cacheplaylist.py:95-104 | a save over existing current tables makes the old generation read as the prior current one |
| SnapshotStore.TwoSavesRotate | syncuserplaylist/utils/cacheplaylist.py:83-125 | after saving L1 then L2, old reads as L1 and current as L2 |
| SnapshotStore.MakePlaylistCache | syncuserplaylist/utils/cacheplaylist.py:314-327 | test mode changes nothing; otherwise exactly the title's four names are added, the cache is complete and its current generation reads back as the live playlist's snapshot; other files are kept |
| SnapshotStore.DeleteOldCache | syncuserplaylist/utils/cacheplaylist.py:330-369 | test mode removes nothing; otherwise an entry remains iff it is non-regular or an artifact of a listed title; remaining entries are unchanged |
| SnapshotStore.DeleteKeepsListed | syncuserplaylist/utils/cacheplaylist.py:343-364 | for a listed title the existence check and both reads are unchanged by garbage collection |
| SnapshotStore.DeleteRemovesUnlisted | syncuserplaylist/utils/cacheplaylist.py:350-357 | a title whose stem matches no listed title loses all its regular artifact files |
| Reconciler.ResolveAll | syncuserplaylist/utils/cacheplaylist.py:238-243 | a track is among the resolved tracks iff the search for some cached row returns it; when every search returns exactly one track, there is one resolved track per row |
| Reconciler.ResolveAllAppend | syncuserplaylist/utils/cacheplaylist.py:402-414 | resolving rows is concatenation: two runs of rows resolve to the first run's tracks followed by the second's, so duplicates and counts are kept |
| Reconciler.AddPass | syncuserplaylist/utils/cacheplaylist.py:238-253 | nothing is removed; a track is present afterwards iff it was before, or it was resolved and its add succeeded |
| Reconciler.RemoveFirst | syncuserplaylist/utils/cacheplaylist.py:257 | one removal takes away exactly one occurrence of the track, or nothing if it is absent |
| Reconciler.RemovePass | syncuserplaylist/utils/cacheplaylist.py:254-264 | the tracks left are the tracks before minus one occurrence per snapshot item that is not kept and whose removal succeeded |
| Reconciler.RemoveAllExtra | syncuserplaylist/utils/cacheplaylist.py:254-264 | with the snapshot taken from the playlist, a track stays iff it is kept or its removal fails |
| Reconciler.UpdatePlaylistSummary | syncuserplaylist/utils/cacheplaylist.py:180-213 | the summary only changes to a non-empty cached summary, outside test mode; a successful edit always sets it; a failed edit leaves the playlist as it was; nothing else changes |
| Reconciler.UpdatePlexFromCache | syncuserplaylist/utils/cacheplaylist.py:216-270 | test mode changes nothing; a cached track ends present iff it was there or its add succeeded; any other track ends present iff it was there and its removal failed; the summary is edited only when it differs and the cached one is non-empty |
| Reconciler.PushReachesCache | syncuserplaylist/utils/cacheplaylist.py:235-265 | with every add and remove succeeding, the playlist's track set equals the resolved cached track set |
| Reconciler.Decide | syncuserplaylist/utils/cacheplaylist.py:416-447 | no change only when cached, old and live lists have one length and the summary is unchanged; a summary revert always pushes; a push needs a cached track missing from the live list, a length mismatch or a changed summary |
| Reconciler.NoChangeCharacterized | syncuserplaylist/utils/cacheplaylist.py:422-454 | the inputs that lead to no change, written as one condition independent of rule order |
| Reconciler.StableIsNoChange | syncuserplaylist/utils/cacheplaylist.py:422-454 | equal track sets and lengths with an unchanged summary give no change |
| Reconciler.SummaryRevertIsPushed | syncuserplaylist/utils/cacheplaylist.py:418-429 | a live summary that differs from the cached one and equals the old one is pushed |
| Reconciler.LostTrackIsPushed | syncuserplaylist/utils/cacheplaylist.py:422-424 | cached {A,B,C}, old {A,B}, live {A,B} pushes from the cache |
| Reconciler.NewTrackIsCached | syncuserplaylist/utils/cacheplaylist.py:439-447 | cached {A,B}, old {A,B}, live {A,B,D} refreshes the cache |
| Reconciler.NewSummaryIsCached | syncuserplaylist/utils/cacheplaylist.py:446 | a summary new to both generations refreshes the cache |
| Reconciler.DuplicateTrackIsCached | syncuserplaylist/utils/cacheplaylist.py:442-445 | list lengths count duplicates: equal sets with a duplicated live track refresh the cache |
| Reconciler.ResolveSnapshot | syncuserplaylist/utils/cacheplaylist.py:39-47 | with a search that finds each item as itself, the rows of a snapshot resolve back to the playlist's items |
| Reconciler.SnapshotTrackIds | syncuserplaylist/utils/cacheplaylist.py:402-407 | a fresh snapshot resolves to exactly the live playlist's track list |
| Reconciler.SyncedCacheIsNotPushed | syncuserplaylist/utils/cacheplaylist.py:422-430 | a cache holding the live tracks and summary is never pushed, whatever the old generation holds |
| Reconciler.NoPushAfterRefresh | syncuserplaylist/utils/cacheplaylist.py:439-452 | right after a refresh, comparing the unchanged playlist never pushes |
| Reconciler.BootstrapIsStable | syncuserplaylist/utils/cacheplaylist.py:314-327 | creating the cache for an uncached playlist makes the next comparison of it decide no change |
| Reconciler.TwoRefreshesAreStable | syncuserplaylist/utils/cacheplaylist.py:372-454 | two refreshes from the same unchanged playlist lead to no change |
| Reconciler.CompareTracksToCache | syncuserplaylist/utils/cacheplaylist.py:372-458 | test mode does nothing; a missing generation aborts with nothing changed; otherwise the decision follows the rule; a push only changes the playlist; a refresh rotates this title's cache, adds only its four names and leaves every other file as it was; no change changes nothing |

## Left out

- Server calls (`searchTracks`, `addItems`, `removeItems`, `editSummary`) are parameters. A search in an unknown section raises in the source and aborts the whole pass; the model has the search return a list instead.
- Success of an add or remove is a function of the track id (the `Oracle` parameter), so repeated calls on the same track fail or succeed together.
- Reconciler.UpdatePlexFromCache: does not model the server's own change of `updatedAt` after an edit.
- Feather and pandas serialization are not modelled. A table is an `Entry`. The timestamp is kept as its ISO-8601 string, so `fromisoformat` is taken to round-trip.
- SnapshotStore.Load: a table of the wrong shape counts as unreadable. In the source, a metadata table read as items would come back as rows.
- SnapshotStore.Save: entries at the playlist's four names are treated as regular files. A directory there makes `os.remove`/`os.rename` raise in the source and skip the rest of that block; that path is not modelled, and neither are failing disk writes.
- Reconciler.AddPass: each call to `items()` (`cacheplaylist.py:244`) is taken to return the playlist as it stands after the earlier adds. The source never reloads the playlist object; if the client returned a list read once, a track cached twice would be added twice.
- Reconciler.RemovePass: each `removeItems` call (`cacheplaylist.py:257`) is taken to act on the playlist as it stands after the earlier removals, taking its first remaining occurrence. A client that worked from a stale copy could leave one copy of a duplicated extra track.
- SnapshotStore.SaveCrashSafety: each single table write is taken to be atomic. A crash inside the last metadata write would leave all four names present with a truncated table.
- SnapshotStore.DeleteOldCache: a listing or removal that raises (missing cache directory, permissions) is not modelled.
- Summaries are strings and "empty" is the falsy case. A missing summary from the table (None/NaN) is not modelled.
- Logging, `print` output and the listing order of `os.listdir` are not modelled.
- Reconciler.UpdatePlexFromCache: the add and remove messages (`cacheplaylist.py:247-264`) fetch the track's artist from the server. A raise there, even inside an `except` branch, escapes and ends the push; the remaining adds, the removes and the summary edit are skipped. The model assumes every such fetch succeeds.
- `syncuserplaylist/utils/plexsyncplaylist.py` is not part of this model. It holds the orchestration loops over users and playlists, playlist creation and name filtering against remote listings.
- `syncuserplaylist/run.py` is not part of this model. It holds environment parsing, the poll interval and the sleep loop.

=== FILE: cache_names.dfy ===
/**
 Path-safe naming of the snapshot cache.

 A playlist title is sanitized into a file-name stem, and each playlist owns four
 artifacts named after that stem: the current items and metadata tables and the
 previous ("_old") generation of both.
 */
module CacheNames {

  /** The characters the source replaces, the class `[<>:"/\\|?*]`. */
  const UnsafeChars: string := "<>:\"/\\|?*"

  predicate IsUnsafe(c: char) {
    c in UnsafeChars
  }

  /** Replacement applied to a single character. */
  function SanitizeChar(c: char): (r: char)
    ensures !IsUnsafe(r)
  {
    if IsUnsafe(c) then '_' else c
  }

  /** Replaces every unsafe character of a title by an underscore. */
  function Sanitize(title: string): (r: string)
    ensures |r| == |title|
    ensures forall i :: 0 <= i < |title| ==> r[i] == SanitizeChar(title[i])
    ensures forall i :: 0 <= i < |r| ==> !IsUnsafe(r[i])
  {
    if title == [] then [] else [SanitizeChar(title[0])] + Sanitize(title[1..])
  }

  /** Sanitizing twice is sanitizing once. */
  lemma SanitizeIdempotent(title: string)
    ensures Sanitize(Sanitize(title)) == Sanitize(title)
  {
  }

  /** The four artifacts kept per playlist. */
  datatype Artifact = CurrentItems | CurrentMetadata | OldItems | OldMetadata

  const CacheExtension: string := "_cache.feather"

  function Suffix(a: Artifact): string {
    match a
    case CurrentItems => "_items"
    case CurrentMetadata => "_metadata"
    case OldItems => "_items_old"
    case OldMetadata => "_metadata_old"
  }

  /** The file name of one artifact for an already sanitized stem. */
  function ArtifactName(stem: string, a: Artifact): string {
    stem + CacheExtension + Suffix(a)
  }

  /** The file name of one artifact of the playlist with this title. */
  function CacheFile(title: string, a: Artifact): string {
    ArtifactName(Sanitize(title), a)
  }

  /** All four artifact names of the playlist with this title. */
  function CacheFiles(title: string): set<string> {
    {CacheFile(title, CurrentItems), CacheFile(title, CurrentMetadata),
     CacheFile(title, OldItems), CacheFile(title, OldMetadata)}
  }

  /** The last and the fifth-from-last character of an artifact name come from its suffix. */
  lemma ArtifactNameTail(stem: string, a: Artifact)
    ensures var n := ArtifactName(stem, a); var x := Suffix(a);
      |n| >= |x| >= 5 && n[|n| - 1] == x[|x| - 1] && n[|n| - 5] == x[|x| - 5]
  {
  }

  /** Artifact names never collide: the name determines both the stem and the artifact. */
  lemma {:induction false} ArtifactNameInjective(stem1: string, a1: Artifact, stem2: string, a2: Artifact)
    requires ArtifactName(stem1, a1) == ArtifactName(stem2, a2)
    ensures stem1 == stem2 && a1 == a2
  {
    var n := ArtifactName(stem1, a1);
    ArtifactNameTail(stem1, a1);
    ArtifactNameTail(stem2, a2);
    var x1, x2 := Suffix(a1), Suffix(a2);
    assert x1[|x1| - 1] == x2[|x2| - 1] && x1[|x1| - 5] == x2[|x2| - 5];
    assert a1 == a2 by {
      match a1
      case CurrentItems =>
        assert x1[|x1| - 1] == 's';
      case CurrentMetadata =>
        assert x1[|x1| - 1] == 'a';
      case OldItems =>
        assert x1[|x1| - 5] == 's';
      case OldMetadata =>
        assert x1[|x1| - 5] == 'a';
    }
    var tail := CacheExtension + Suffix(a1);
    assert n == stem1 + tail == stem2 + tail;
    assert |stem1| == |stem2|;
    assert stem1 == n[..|stem1|] == stem2;
  }

  /** The four artifacts of one playlist have four distinct names. */
  lemma CacheFileNamesDistinct(title: string)
    ensures CacheFile(title, CurrentItems) != CacheFile(title, CurrentMetadata)
    ensures CacheFile(title, CurrentItems) != CacheFile(title, OldItems)
    ensures CacheFile(title, CurrentItems) != CacheFile(title, OldMetadata)
    ensures CacheFile(title, CurrentMetadata) != CacheFile(title, OldItems)
    ensures CacheFile(title, CurrentMetadata) != CacheFile(title, OldMetadata)
    ensures CacheFile(title, OldItems) != CacheFile(title, OldMetadata)
  {
  }

  /** Two titles share any artifact name exactly when they sanitize to the same stem. */
  lemma CacheFilesShared(t1: string, t2: string)
    ensures CacheFiles(t1) !! CacheFiles(t2) <==> Sanitize(t1) != Sanitize(t2)
    ensures Sanitize(t1) == Sanitize(t2) ==> CacheFiles(t1) == CacheFiles(t2)
  {
    if Sanitize(t1) != Sanitize(t2) {
      forall k | k in CacheFiles(t1) && k in CacheFiles(t2)
        ensures false
      {
        var a1: Artifact :| k == CacheFile(t1, a1);
        var a2: Artifact :| k == CacheFile(t2, a2);
        ArtifactNameInjective(Sanitize(t1), a1, Sanitize(t2), a2);
      }
    } else {
      assert CacheFile(t1, CurrentItems) in CacheFiles(t2);
    }
  }
}

=== FILE: reconciler.dfy ===
/**
 The reconciliation between a live playlist and its two cached generations:
 the three-way decision and the "push from cache" update of the live playlist.

 Server calls are parameters: `Resolver` is the library search that turns a cached
 record back into server tracks, and `Oracle` says which add, remove and summary
 edit calls succeed.
 */
module Reconciler {

  import opened Wrappers
  import opened CacheNames
  import opened Records
  import opened SnapshotStore

  /** The library search by section and rating key; an empty answer drops the record. */
  type Resolver = (SectionId, TrackId) -> seq<LiveItem>

  /** Which server calls succeed; a failed call leaves the playlist as it was. */
  datatype Oracle = Oracle(addOk: TrackId -> bool, removeOk: TrackId -> bool, editOk: bool)

  datatype Decision = PushFromCache | RefreshCache | NoChange

  function Elems(s: seq<TrackId>): (r: set<TrackId>)
    ensures forall x :: x in r <==> x in s
  {
    set x | x in s
  }

  /**
   The decision rule. `summaryChanged` is true when the live summary differs from the
   cached one; `oldSummaryChanged`, despite its name, is true when the live summary
   EQUALS the old cached one. Lengths are list lengths, not set sizes.
   */
  function Decide(live: seq<TrackId>, cached: seq<TrackId>, oldCached: seq<TrackId>,
                  summaryChanged: bool, oldSummaryChanged: bool): (r: Decision)
    ensures r == NoChange ==> |cached| == |live| && |oldCached| == |live| && !summaryChanged
    ensures summaryChanged && oldSummaryChanged ==> r == PushFromCache
    ensures r == PushFromCache ==> !(Elems(cached) <= Elems(live)) || |cached| != |live| || summaryChanged
  {
    if (!(Elems(cached) <= Elems(live)) && Elems(oldCached) <= Elems(live))
       || (|cached| != |live| && |oldCached| == |live|)
       || (summaryChanged && oldSummaryChanged)
    then PushFromCache
    else if (!(Elems(live) <= Elems(cached)) && !(Elems(oldCached) <= Elems(live)))
       || (|cached| != |live| || |oldCached| != |live|)
       || (summaryChanged && !oldSummaryChanged)
    then RefreshCache
    else NoChange
  }

  /** Resolves every cached record, in order, concatenating what the search returns. */
  function ResolveAll(resolve: Resolver, rows: seq<TrackRecord>): (r: seq<LiveItem>)
    ensures forall x :: x in r <==> exists i :: 0 <= i < |rows| && x in resolve(rows[i].librarySectionId, rows[i].ratingKey)
    ensures (forall i :: 0 <= i < |rows| ==> |resolve(rows[i].librarySectionId, rows[i].ratingKey)| == 1) ==> |r| == |rows|
  {
    if rows == [] then []
    else
      var r := resolve(rows[0].librarySectionId, rows[0].ratingKey) + ResolveAll(resolve, rows[1..]);
      assert forall i :: 1 <= i < |rows| ==> rows[i] == rows[1..][i - 1];
      r
  }

  /**
   The add pass: each resolved track that is not yet in the playlist is appended,
   unless the add call fails, in which case that track alone is skipped.
   */
  function AddPass(target: seq<LiveItem>, found: seq<LiveItem>, addOk: TrackId -> bool): (r: seq<LiveItem>)
    ensures target <= r
    ensures forall id :: id in Ids(r) <==> id in Ids(target) || (id in Ids(found) && addOk(id))
    decreases |found|
  {
    if found == [] then target
    else
      var t := found[0];
      var next := if t.id !in Ids(target) && addOk(t.id) then target + [t] else target;
      IdsAppend(target, [t]);
      assert forall id :: id in Ids(found) <==> id == t.id || id in Ids(found[1..]);
      AddPass(next, found[1..], addOk)
  }

  /** Removes the first item with this identity; the playlist is unchanged when there is none. */
  function RemoveFirst(items: seq<LiveItem>, id: TrackId): (r: seq<LiveItem>)
    ensures multiset(Ids(r)) == multiset(Ids(items)) - multiset{id}
  {
    if items == [] then []
    else if items[0].id == id then
      assert Ids(items) == [id] + Ids(items[1..]);
      items[1..]
    else
      assert Ids(items) == [items[0].id] + Ids(items[1..]);
      var rest := RemoveFirst(items[1..], id);
      assert Ids([items[0]] + rest) == [items[0].id] + Ids(rest);
      [items[0]] + rest
  }

  /** The identities in a snapshot whose removal is attempted and succeeds. */
  function Removable(ids: seq<TrackId>, keep: set<TrackId>, removeOk: TrackId -> bool): (r: seq<TrackId>)
    ensures forall id :: multiset(r)[id] == if id !in keep && removeOk(id) then multiset(ids)[id] else 0
  {
    if ids == [] then []
    else
      assert ids == [ids[0]] + ids[1..];
      (if ids[0] !in keep && removeOk(ids[0]) then [ids[0]] else []) + Removable(ids[1..], keep, removeOk)
  }

  /**
   The remove pass over a snapshot of the playlist: every item whose identity is not
   in `keep` is removed, one occurrence per snapshot item, skipping failed calls.
   */
  function RemovePass(target: seq<LiveItem>, snapshot: seq<LiveItem>, keep: set<TrackId>,
                      removeOk: TrackId -> bool): (r: seq<LiveItem>)
    ensures multiset(Ids(r)) == multiset(Ids(target)) - multiset(Removable(Ids(snapshot), keep, removeOk))
    decreases |snapshot|
  {
    if snapshot == [] then target
    else
      var id := snapshot[0].id;
      var first := if id !in keep && removeOk(id) then [id] else [];
      var next := if id !in keep && removeOk(id) then RemoveFirst(target, id) else target;
      var ids := Ids(snapshot);
      assert ids == [id] + Ids(snapshot[1..]);
      assert ids[1..] == Ids(snapshot[1..]);
      assert Removable(ids, keep, removeOk) == first + Removable(Ids(snapshot[1..]), keep, removeOk);
      assert multiset(Ids(next)) == multiset(Ids(target)) - multiset(first);
      MultisetMinusConcat(multiset(Ids(target)), multiset(first), multiset(Removable(Ids(snapshot[1..]), keep, removeOk)));
      RemovePass(next, snapshot[1..], keep, removeOk)
  }

  lemma MultisetMinusConcat(a: multiset<TrackId>, b: multiset<TrackId>, c: multiset<TrackId>)
    ensures (a - b) - c == a - (b + c)
  {
  }

  /** Removing along a snapshot of the playlist itself removes every occurrence of a removable track. */
  lemma RemoveAllExtra(items: seq<LiveItem>, keep: set<TrackId>, removeOk: TrackId -> bool)
    ensures forall id :: id in Ids(RemovePass(items, items, keep, removeOk)) <==>
      id in Ids(items) && (id in keep || !removeOk(id))
  {
    var r := RemovePass(items, items, keep, removeOk);
    var removed := multiset(Removable(Ids(items), keep, removeOk));
    assert multiset(Ids(r)) == multiset(Ids(items)) - removed;
    forall id
      ensures id in Ids(r) <==> id in Ids(items) && (id in keep || !removeOk(id))
    {
      // A removable track is removed once per occurrence, so none is left.
      assert removed[id] == if id !in keep && removeOk(id) then multiset(Ids(items))[id] else 0;
      assert id in Ids(r) <==> multiset(Ids(r))[id] > 0;
      assert id in Ids(items) <==> multiset(Ids(items))[id] > 0;
    }
  }

  /** Resolving two runs of records one after the other is resolving them together. */
  lemma {:induction false} ResolveAllAppend(resolve: Resolver, a: seq<TrackRecord>, b: seq<TrackRecord>)
    ensures ResolveAll(resolve, a + b) == ResolveAll(resolve, a) + ResolveAll(resolve, b)
    decreases |a|
  {
    if a != [] {
      assert (a + b)[0] == a[0] && (a + b)[1..] == a[1..] + b;
      ResolveAllAppend(resolve, a[1..], b);
      assert ResolveAll(resolve, a + b)
          == resolve(a[0].librarySectionId, a[0].ratingKey) + ResolveAll(resolve, a[1..] + b);
    } else {
      assert a + b == b;
    }
  }

  /** Edits the summary to the cached one when that is non-empty, outside test mode and if the edit succeeds. */
  function UpdatePlaylistSummary(target: LivePlaylist, cachedSummary: string, editOk: bool, isTest: bool): (r: LivePlaylist)
    ensures r.(summary := target.summary) == target
    ensures r.summary != target.summary ==> r.summary == cachedSummary && cachedSummary != [] && !isTest
    ensures cachedSummary != [] && !isTest && editOk ==> r.summary == cachedSummary
    ensures isTest ==> r == target
    ensures !editOk ==> r == target
  {
    if cachedSummary != [] && !isTest && editOk then target.(summary := cachedSummary) else target
  }

  /** The identities the cached generation resolves to. */
  function CachedTrackIds(resolve: Resolver, cache: PlaylistInfo): seq<TrackId> {
    Ids(ResolveAll(resolve, cache.items))
  }

  /**
   Pushes the cached generation onto the live playlist: adds the resolved cached
   tracks it lacks, removes the tracks the cache does not hold, and copies the cached
   summary when it differs. Each call that fails is skipped on its own.
   */
  function UpdatePlexFromCache(target: LivePlaylist, cache: PlaylistInfo, resolve: Resolver,
                               oracle: Oracle, isTest: bool): (r: LivePlaylist)
    ensures isTest ==> r == target
    ensures r.title == target.title && r.playlistType == target.playlistType && r.updatedAt == target.updatedAt
    ensures !isTest ==> forall id :: id in Ids(r.items) <==>
      if id in CachedTrackIds(resolve, cache)
      then id in Ids(target.items) || oracle.addOk(id)
      else id in Ids(target.items) && !oracle.removeOk(id)
    ensures !isTest ==>
              r.summary == if target.summary != cache.summary && cache.summary != [] && oracle.editOk
                           then cache.summary else target.summary
  {
    if isTest then target
    else
      var found := ResolveAll(resolve, cache.items);
      var added := AddPass(target.items, found, oracle.addOk);
      var kept := Elems(Ids(found));
      var removed := RemovePass(added, added, kept, oracle.removeOk);
      RemoveAllExtra(added, kept, oracle.removeOk);
      var p := target.(items := removed);
      if p.summary != cache.summary then UpdatePlaylistSummary(p, cache.summary, oracle.editOk, false) else p
  }

  /** Every add and remove succeeding, the pushed playlist holds exactly the cached tracks. */
  lemma PushReachesCache(target: LivePlaylist, cache: PlaylistInfo, resolve: Resolver, oracle: Oracle)
    requires forall id :: oracle.addOk(id) && oracle.removeOk(id)
    ensures Elems(Ids(UpdatePlexFromCache(target, cache, resolve, oracle, false).items))
         == Elems(CachedTrackIds(resolve, cache))
  {
  }

  /** What one comparison did. */
  datatype Outcome = TestMode | CacheUnreadable | Decided(decision: Decision)

  /** The state a comparison acts on: the cache directory and the live playlist. */
  datatype World = World(store: Store, playlist: LivePlaylist)

  datatype Compared = Compared(outcome: Outcome, world: World)

  /** The decision the rule takes for the live playlist against the two cached generations. */
  function DecideFor(p: LivePlaylist, cached: PlaylistInfo, oldCached: PlaylistInfo, resolve: Resolver): Decision {
    Decide(Ids(p.items), CachedTrackIds(resolve, cached), CachedTrackIds(resolve, oldCached),
           p.summary != cached.summary, p.summary == oldCached.summary)
  }

  /**
   Compares the live playlist with both cached generations and acts on the decision:
   a push updates the live playlist, a refresh saves a new snapshot, no change does
   nothing. A missing generation aborts the comparison; test mode does nothing.
   */
  function CompareTracksToCache(w: World, resolve: Resolver, oracle: Oracle, isTest: bool): (r: Compared)
    ensures isTest ==> r == Compared(TestMode, w)
    ensures r.outcome == CacheUnreadable <==>
      !isTest && (Load(w.store, w.playlist.title, false, false).None? || Load(w.store, w.playlist.title, true, false).None?)
    ensures r.outcome.Decided? ==>
      var cached := Load(w.store, w.playlist.title, false, false).value;
      var oldCached := Load(w.store, w.playlist.title, true, false).value;
      r.outcome.decision == DecideFor(w.playlist, cached, oldCached, resolve)
    ensures r.outcome.Decided? && r.outcome.decision == NoChange ==> r.world == w
    ensures !r.outcome.Decided? ==> r.world == w
    ensures r.outcome == Decided(PushFromCache) ==>
      r.world.store == w.store
      && r.world.playlist == UpdatePlexFromCache(w.playlist, Load(w.store, w.playlist.title, false, false).value, resolve, oracle, false)
    ensures r.outcome == Decided(RefreshCache) ==>
      r.world.playlist == w.playlist
      && Load(r.world.store, w.playlist.title, false, false) == Some(ExtractPlaylistInfo(w.playlist))
      && Load(r.world.store, w.playlist.title, true, false) == Load(w.store, w.playlist.title, false, false)
      && r.world.store.Keys == w.store.Keys + CacheFiles(w.playlist.title)
      && forall k :: k in w.store && k !in CacheFiles(w.playlist.title) ==> r.world.store[k] == w.store[k]
  {
    if isTest then Compared(TestMode, w)
    else
      var title := w.playlist.title;
      var cached := Load(w.store, title, false, false);
      var oldCached := Load(w.store, title, true, false);
      if cached.None? || oldCached.None? then Compared(CacheUnreadable, w)
      else
        var d := DecideFor(w.playlist, cached.value, oldCached.value, resolve);
        match d
        case PushFromCache =>
          Compared(Decided(d), w.(playlist := UpdatePlexFromCache(w.playlist, cached.value, resolve, oracle, false)))
        case RefreshCache =>
          SaveRotatesCurrentToOld(w.store, title, ExtractPlaylistInfo(w.playlist));
          Compared(Decided(d), w.(store := MakePlaylistCache(w.store, w.playlist, false)))
        case NoChange =>
          Compared(Decided(d), w)
  }

  // Properties of the decision rule.

  /** The exact inputs on which nothing is done, written without the rule order. */
  lemma NoChangeCharacterized(live: seq<TrackId>, cached: seq<TrackId>, oldCached: seq<TrackId>,
                              summaryChanged: bool, oldSummaryChanged: bool)
    ensures Decide(live, cached, oldCached, summaryChanged, oldSummaryChanged) == NoChange <==>
      && |cached| == |live| && |oldCached| == |live| && !summaryChanged
      && (Elems(cached) <= Elems(live) || !(Elems(oldCached) <= Elems(live)))
      && (Elems(live) <= Elems(cached) || Elems(oldCached) <= Elems(live))
  {
  }

  /** Three lists with the same tracks and length and an unchanged summary need nothing. */
  lemma StableIsNoChange(live: seq<TrackId>, cached: seq<TrackId>, oldCached: seq<TrackId>, oldSummaryChanged: bool)
    requires Elems(live) == Elems(cached) == Elems(oldCached)
    requires |live| == |cached| == |oldCached|
    ensures Decide(live, cached, oldCached, false, oldSummaryChanged) == NoChange
  {
  }

  /** A live summary that went back to the old cached one while the cached one differs is pushed back. */
  lemma SummaryRevertIsPushed(live: seq<TrackId>, cached: seq<TrackId>, oldCached: seq<TrackId>)
    ensures Decide(live, cached, oldCached, true, true) == PushFromCache
  {
  }

  /** Cached {A,B,C}, old {A,B}, live {A,B}: the lost track is pushed back from the cache. */
  lemma LostTrackIsPushed()
    ensures Decide([1, 2], [1, 2, 3], [1, 2], false, true) == PushFromCache
  {
    assert 3 in Elems([1, 2, 3]) && 3 !in Elems([1, 2]);
  }

  /** Cached {A,B}, old {A,B}, live {A,B,D}: the new track is taken into the cache. */
  lemma NewTrackIsCached()
    ensures Decide([1, 2, 4], [1, 2], [1, 2], false, true) == RefreshCache
  {
  }

  /** A summary edited away from both cached generations is taken into the cache. */
  lemma NewSummaryIsCached(ids: seq<TrackId>)
    ensures Decide(ids, ids, ids, true, false) == RefreshCache
  {
  }

  /** Lengths count duplicates: equal sets with a duplicated live track still refresh the cache. */
  lemma DuplicateTrackIsCached()
    ensures Decide([1, 1], [1], [1], false, true) == RefreshCache
  {
  }

  // Properties of a comparison over the whole cache.

  /** The library search finds every item of the playlist as exactly that item. */
  ghost predicate Faithful(resolve: Resolver, items: seq<LiveItem>) {
    forall i :: 0 <= i < |items| ==> resolve(items[i].section, items[i].id) == [items[i]]
  }

  /** Resolving a snapshot of the playlist with a faithful search gives back the playlist's items. */
  lemma {:induction false} ResolveSnapshot(resolve: Resolver, items: seq<LiveItem>)
    requires Faithful(resolve, items)
    ensures ResolveAll(resolve, ItemRecords(items)) == items
  {
    if items != [] {
      var rows := ItemRecords(items);
      var head := ItemRecord(items[0]);
      assert rows == [head] + ItemRecords(items[1..]);
      assert rows[0] == head && rows[1..] == ItemRecords(items[1..]);
      assert resolve(head.librarySectionId, head.ratingKey) == [items[0]];
      FaithfulSuffix(resolve, items);
      ResolveSnapshot(resolve, items[1..]);
      assert ResolveAll(resolve, rows) == [items[0]] + items[1..];
    }
  }

  lemma FaithfulSuffix(resolve: Resolver, items: seq<LiveItem>)
    requires items != [] && Faithful(resolve, items)
    ensures Faithful(resolve, items[1..])
  {
    forall i | 0 <= i < |items| - 1
      ensures resolve(items[1..][i].section, items[1..][i].id) == [items[1..][i]]
    {
      assert items[1..][i] == items[i + 1];
    }
  }

  /** A freshly taken snapshot resolves to exactly the live playlist's tracks. */
  lemma SnapshotTrackIds(resolve: Resolver, p: LivePlaylist)
    requires Faithful(resolve, p.items)
    ensures CachedTrackIds(resolve, ExtractPlaylistInfo(p)) == Ids(p.items)
  {
    ResolveSnapshot(resolve, p.items);
  }

  /** A cache that holds exactly the live tracks and summary is never pushed. */
  lemma SyncedCacheIsNotPushed(live: seq<TrackId>, oldCached: seq<TrackId>, oldSummaryChanged: bool)
    ensures Decide(live, live, oldCached, false, oldSummaryChanged) != PushFromCache
  {
  }

  /** Right after a refresh, comparing the unchanged playlist never pushes. */
  lemma NoPushAfterRefresh(s: Store, p: LivePlaylist, resolve: Resolver, oracle: Oracle)
    requires Faithful(resolve, p.items)
    ensures CompareTracksToCache(World(Save(s, p.title, ExtractPlaylistInfo(p)), p), resolve, oracle, false).outcome
            != Decided(PushFromCache)
  {
    var info := ExtractPlaylistInfo(p);
    var w := World(Save(s, p.title, info), p);
    var r := CompareTracksToCache(w, resolve, oracle, false);
    if r.outcome.Decided? {
      LoadAfterSave(s, p.title, info);
      var oldCached := Load(w.store, p.title, true, false).value;
      SnapshotTrackIds(resolve, p);
      assert r.outcome.decision == DecideFor(p, info, oldCached, resolve);
      SyncedCacheIsNotPushed(Ids(p.items), CachedTrackIds(resolve, oldCached), p.summary == oldCached.summary);
    }
  }

  /**
   Bootstrapping a playlist without a cache writes both generations, so the next
   comparison of the unchanged playlist decides no change.
   */
  lemma BootstrapIsStable(s: Store, p: LivePlaylist, resolve: Resolver, oracle: Oracle)
    requires CacheFile(p.title, CurrentItems) !in s && CacheFile(p.title, CurrentMetadata) !in s
    requires Faithful(resolve, p.items)
    ensures CompareTracksToCache(World(MakePlaylistCache(s, p, false), p), resolve, oracle, false).outcome
            == Decided(NoChange)
  {
    FirstSaveWritesBothGenerations(s, p.title, ExtractPlaylistInfo(p));
    SyncedGenerationsAreStable(MakePlaylistCache(s, p, false), p, resolve, oracle);
  }

  /** Two refreshes from the same unchanged playlist always reach no change. */
  lemma TwoRefreshesAreStable(s: Store, p: LivePlaylist, resolve: Resolver, oracle: Oracle)
    requires Faithful(resolve, p.items)
    ensures var info := ExtractPlaylistInfo(p);
      CompareTracksToCache(World(Save(Save(s, p.title, info), p.title, info), p), resolve, oracle, false).outcome
      == Decided(NoChange)
  {
    var info := ExtractPlaylistInfo(p);
    TwoSavesRotate(s, p.title, info, info);
    SyncedGenerationsAreStable(Save(Save(s, p.title, info), p.title, info), p, resolve, oracle);
  }

  /** When both generations hold a snapshot of the unchanged playlist, nothing is done. */
  lemma SyncedGenerationsAreStable(st: Store, p: LivePlaylist, resolve: Resolver, oracle: Oracle)
    requires Faithful(resolve, p.items)
    requires Load(st, p.title, false, false) == Some(ExtractPlaylistInfo(p))
    requires Load(st, p.title, true, false) == Some(ExtractPlaylistInfo(p))
    ensures CompareTracksToCache(World(st, p), resolve, oracle, false).outcome == Decided(NoChange)
  {
    var info := ExtractPlaylistInfo(p);
    var r := CompareTracksToCache(World(st, p), resolve, oracle, false);
    SnapshotTrackIds(resolve, p);
    assert r.outcome.Decided?;
    assert r.outcome.decision == DecideFor(p, info, info, resolve)
        == Decide(Ids(p.items), Ids(p.items), Ids(p.items), false, true);
    StableIsNoChange(Ids(p.items), Ids(p.items), Ids(p.items), true);
  }
}

=== FILE: records.dfy ===
/**
 The records the cache stores and the live playlist they are taken from.

 A live playlist item is identified by its rating key: two track objects of the
 media server are equal exactly when their keys are, so the model keeps the key
 as the identity of an item.
 */
module Records {

  import opened Wrappers

  type TrackId = int
  type SectionId = int

  /** A track as the media server hands it out. */
  datatype LiveItem = LiveItem(
    id: TrackId,
    title: string,
    kind: string,
    section: SectionId,
    artist: string)

  /** A playlist as the media server hands it out; `updatedAt` is kept in its ISO-8601 form. */
  datatype LivePlaylist = LivePlaylist(
    title: string,
    summary: string,
    playlistType: string,
    updatedAt: string,
    items: seq<LiveItem>)

  /** One row of the items table; the artist is only recorded for tracks. */
  datatype TrackRecord = TrackRecord(
    title: string,
    ratingKey: TrackId,
    kind: string,
    librarySectionId: SectionId,
    artist: Option<string>)

  /** The single row of the metadata table. */
  datatype Metadata = Metadata(
    title: string,
    summary: string,
    playlistType: string,
    updatedAt: string)

  /** The serialized form of a playlist: metadata plus the ordered item records. */
  datatype PlaylistInfo = PlaylistInfo(
    title: string,
    summary: string,
    playlistType: string,
    updatedAt: string,
    items: seq<TrackRecord>)
  {
    function Meta(): Metadata {
      Metadata(title, summary, playlistType, updatedAt)
    }
  }

  const TrackKind: string := "track"

  function ItemRecord(item: LiveItem): (r: TrackRecord)
    ensures r.ratingKey == item.id && r.librarySectionId == item.section
    ensures r.artist.Some? <==> item.kind == TrackKind
    ensures item.kind == TrackKind ==> r.artist == Some(item.artist)
  {
    TrackRecord(item.title, item.id, item.kind, item.section,
                if item.kind == TrackKind then Some(item.artist) else None)
  }

  /** Serializes a live playlist: its metadata and one record per item, in order. */
  function ExtractPlaylistInfo(p: LivePlaylist): (r: PlaylistInfo)
    ensures r.title == p.title && r.summary == p.summary
    ensures r.playlistType == p.playlistType && r.updatedAt == p.updatedAt
    ensures |r.items| == |p.items|
    ensures forall i :: 0 <= i < |p.items| ==>
      r.items[i].ratingKey == p.items[i].id && r.items[i].librarySectionId == p.items[i].section
      && r.items[i].title == p.items[i].title && r.items[i].kind == p.items[i].kind
      && (r.items[i].artist.Some? <==> p.items[i].kind == TrackKind)
      && (p.items[i].kind == TrackKind ==> r.items[i].artist == Some(p.items[i].artist))
  {
    PlaylistInfo(p.title, p.summary, p.playlistType, p.updatedAt, ItemRecords(p.items))
  }

  function ItemRecords(items: seq<LiveItem>): (r: seq<TrackRecord>)
    ensures |r| == |items|
    ensures forall i :: 0 <= i < |items| ==> r[i] == ItemRecord(items[i])
  {
    if items == [] then [] else [ItemRecord(items[0])] + ItemRecords(items[1..])
  }

  /** The identities of a sequence of items, in order. */
  function Ids(items: seq<LiveItem>): (r: seq<TrackId>)
    ensures |r| == |items|
    ensures forall i :: 0 <= i < |items| ==> r[i] == items[i].id
  {
    if items == [] then [] else [items[0].id] + Ids(items[1..])
  }

  lemma IdsAppend(items: seq<LiveItem>, more: seq<LiveItem>)
    ensures Ids(items + more) == Ids(items) + Ids(more)
  {
  }
}

=== FILE: snapshot_store.dfy ===
/**
 The on-disk snapshot cache as a pure state machine.

 The cache directory is a map from file name to entry. Every filesystem step the
 source performs (remove, rename, write) is a transition of that map, so a save is
 the sequence of states it passes through and a crash is any prefix of it.
 */
module SnapshotStore {

  import opened Wrappers
  import opened CacheNames
  import opened Records

  /** One directory entry of the cache directory. */
  datatype Entry =
    | ItemsTable(rows: seq<TrackRecord>)
    | MetadataTable(meta: Metadata)
    | OtherFile     // a regular file that holds no cache table of the expected shape
    | NotAFile      // a directory or another non-regular entry

  type Store = map<string, Entry>

  // Primitive filesystem steps. Removing or renaming a missing file is guarded by an
  // existence check in the source, so it leaves the directory as it was.

  function RemoveFile(s: Store, name: string): (r: Store)
    ensures name !in r && forall k :: k in s && k != name ==> k in r && r[k] == s[k]
    ensures r.Keys <= s.Keys
  {
    s - {name}
  }

  function RenameFile(s: Store, src: string, dst: string): (r: Store)
    requires src != dst
    ensures src !in r
    ensures src in s ==> dst in r && r[dst] == s[src]
    ensures src !in s ==> r == s
    ensures forall k :: k != src && k != dst ==> (k in r <==> k in s) && (k in s ==> r[k] == s[k])
  {
    if src in s then (s - {src})[dst := s[src]] else s
  }

  /** True when all four artifacts of the playlist are present (in any form). */
  function CheckForPlaylistCache(s: Store, title: string): (r: bool)
    ensures r <==> CacheFiles(title) <= s.Keys
    ensures r ==> forall a: Artifact :: CacheFile(title, a) in s
  {
    CacheFile(title, CurrentItems) in s && CacheFile(title, CurrentMetadata) in s
    && CacheFile(title, OldItems) in s && CacheFile(title, OldMetadata) in s
  }

  /**
   Writes one table of a new generation. When no previous generation of that table
   exists, the table is written, renamed to the previous name and written again, so
   both generations end up holding it; otherwise only the current table is written.
   */
  function WriteGeneration(s: Store, current: string, previous: string, e: Entry): (steps: seq<Store>)
    requires current != previous
    ensures |steps| > 0
  {
    if previous !in s then
      var written := s[current := e];
      var rotated := RenameFile(written, current, previous);
      [written, rotated, rotated[current := e]]
    else
      [s[current := e]]
  }

  /**
   The directory after a generation write: the current table holds the entry and the
   previous one the prior previous table or, on a first write, the entry as well.
   */
  function Written(s: Store, current: string, previous: string, e: Entry): (r: Store)
    requires current != previous
    ensures r.Keys == s.Keys + {current, previous}
    ensures r[current] == e
    ensures r[previous] == if previous in s then s[previous] else e
    ensures forall k :: k in s && k != current && k != previous ==> r[k] == s[k]
  {
    var steps := WriteGeneration(s, current, previous, e);
    steps[|steps| - 1]
  }

  /** The states the cache directory passes through while a snapshot is saved. */
  function SaveTrace(s: Store, title: string, info: PlaylistInfo): (steps: seq<Store>)
    ensures |steps| > 4
    ensures CacheFile(title, OldItems) !in steps[1] && CacheFile(title, OldMetadata) !in steps[1]
    ensures CacheFile(title, CurrentItems) !in steps[3] && CacheFile(title, CurrentMetadata) !in steps[3]
  {
    CacheFileNamesDistinct(title);
    var items, meta := CacheFile(title, CurrentItems), CacheFile(title, CurrentMetadata);
    var itemsOld, metaOld := CacheFile(title, OldItems), CacheFile(title, OldMetadata);
    var s1 := RemoveFile(s, itemsOld);
    var s2 := RemoveFile(s1, metaOld);
    var s3 := RenameFile(s2, items, itemsOld);
    var s4 := RenameFile(s3, meta, metaOld);
    var itemSteps := WriteGeneration(s4, items, itemsOld, ItemsTable(info.items));
    var metaSteps := WriteGeneration(itemSteps[|itemSteps| - 1], meta, metaOld, MetadataTable(info.Meta()));
    var steps := [s1, s2, s3, s4] + itemSteps + metaSteps;
    assert steps[1] == s2 && steps[3] == s4;
    steps
  }

  /**
   The first four steps of a save: the previous generation is removed and the current
   one is renamed to take its place, leaving no current tables.
   */
  function Rotate(s: Store, title: string): (r: Store)
    ensures CacheFile(title, CurrentItems) !in r && CacheFile(title, CurrentMetadata) !in r
    ensures CacheFile(title, OldItems) in r <==> CacheFile(title, CurrentItems) in s
    ensures CacheFile(title, OldItems) in r ==> r[CacheFile(title, OldItems)] == s[CacheFile(title, CurrentItems)]
    ensures CacheFile(title, OldMetadata) in r <==> CacheFile(title, CurrentMetadata) in s
    ensures CacheFile(title, OldMetadata) in r ==> r[CacheFile(title, OldMetadata)] == s[CacheFile(title, CurrentMetadata)]
    ensures forall k :: k !in CacheFiles(title) ==> (k in r <==> k in s) && (k in s ==> r[k] == s[k])
    ensures r.Keys + CacheFiles(title) == s.Keys + CacheFiles(title)
  {
    CacheFileNamesDistinct(title);
    var items, meta := CacheFile(title, CurrentItems), CacheFile(title, CurrentMetadata);
    var itemsOld, metaOld := CacheFile(title, OldItems), CacheFile(title, OldMetadata);
    RenameFile(RenameFile(RemoveFile(RemoveFile(s, itemsOld), metaOld), items, itemsOld), meta, metaOld)
  }

  /**
   Saves a snapshot: the previous generation is discarded, the current one becomes
   the previous one and the snapshot becomes current. On a first save both
   generations hold the snapshot. Files of other playlists are untouched.
   */
  function Save(s: Store, title: string, info: PlaylistInfo): (r: Store)
    ensures r.Keys == s.Keys + CacheFiles(title)
    ensures r[CacheFile(title, CurrentItems)] == ItemsTable(info.items)
    ensures r[CacheFile(title, CurrentMetadata)] == MetadataTable(info.Meta())
    ensures r[CacheFile(title, OldItems)] ==
      if CacheFile(title, CurrentItems) in s then s[CacheFile(title, CurrentItems)] else ItemsTable(info.items)
    ensures r[CacheFile(title, OldMetadata)] ==
      if CacheFile(title, CurrentMetadata) in s then s[CacheFile(title, CurrentMetadata)] else MetadataTable(info.Meta())
    ensures forall k :: k in s && k !in CacheFiles(title) ==> r[k] == s[k]
  {
    CacheFileNamesDistinct(title);
    var t := Written(Rotate(s, title), CacheFile(title, CurrentItems), CacheFile(title, OldItems), ItemsTable(info.items));
    Written(t, CacheFile(title, CurrentMetadata), CacheFile(title, OldMetadata), MetadataTable(info.Meta()))
  }

  /** The last state a save passes through is the saved directory. */
  lemma SaveTraceEndsInSave(s: Store, title: string, info: PlaylistInfo)
    ensures var steps := SaveTrace(s, title, info); steps[|steps| - 1] == Save(s, title, info)
  {
  }

  /**
   Reads one generation back. Nothing is read in test mode, and a missing or
   unreadable table yields nothing.
   */
  function Load(s: Store, title: string, loadOld: bool, isTest: bool): (r: Option<PlaylistInfo>)
    ensures isTest ==> r.None?
    ensures r.Some? ==>
      var items := CacheFile(title, if loadOld then OldItems else CurrentItems);
      var meta := CacheFile(title, if loadOld then OldMetadata else CurrentMetadata);
      items in s && meta in s && s[items] == ItemsTable(r.value.items) && s[meta] == MetadataTable(r.value.Meta())
    ensures
      var items := CacheFile(title, if loadOld then OldItems else CurrentItems);
      var meta := CacheFile(title, if loadOld then OldMetadata else CurrentMetadata);
      !isTest && items in s && s[items].ItemsTable? && meta in s && s[meta].MetadataTable? ==> r.Some?
  {
    if isTest then None
    else
      var items := CacheFile(title, if loadOld then OldItems else CurrentItems);
      var meta := CacheFile(title, if loadOld then OldMetadata else CurrentMetadata);
      if items in s && s[items].ItemsTable? && meta in s && s[meta].MetadataTable? then
        var m := s[meta].meta;
        Some(PlaylistInfo(m.title, m.summary, m.playlistType, m.updatedAt, s[items].rows))
      else None
  }

  /** Takes a snapshot of the live playlist and saves it, unless in test mode. */
  function MakePlaylistCache(s: Store, p: LivePlaylist, isTest: bool): (r: Store)
    ensures isTest ==> r == s
    ensures !isTest ==> r.Keys == s.Keys + CacheFiles(p.title)
    ensures !isTest ==> CheckForPlaylistCache(r, p.title)
    ensures !isTest ==> Load(r, p.title, false, false) == Some(ExtractPlaylistInfo(p))
    ensures forall k :: k in s && k !in CacheFiles(p.title) ==> k in r && r[k] == s[k]
  {
    if isTest then s else Save(s, p.title, ExtractPlaylistInfo(p))
  }

  /** The file names that garbage collection keeps: the four artifacts of every listed title. */
  function KeepNames(playlists: seq<string>): (r: set<string>)
    ensures forall k :: k in r <==> exists t :: t in playlists && k in CacheFiles(t)
  {
    set t, k | t in playlists && k in CacheFiles(t) :: k
  }

  /**
   Removes every regular file that is not an artifact of a listed playlist;
   non-regular entries stay, and test mode removes nothing.
   */
  function DeleteOldCache(s: Store, playlists: seq<string>, isTest: bool): (r: Store)
    ensures isTest ==> r == s
    ensures forall k :: k in r ==> k in s && r[k] == s[k]
    ensures !isTest ==> forall k :: k in s ==>
      (k in r <==> s[k].NotAFile? || exists t :: t in playlists && k in CacheFiles(t))
  {
    if isTest then s
    else
      var keep := KeepNames(playlists);
      map k | k in s && (k in keep || s[k].NotAFile?) :: s[k]
  }

  // Properties relating several operations.

  /**
   A save is never observable half-done at the granularity of its filesystem steps:
   at every state strictly inside the save the existence check fails, and at its end
   it holds. Each single table write is taken to be atomic.
   */
  lemma {:induction false} SaveCrashSafety(s: Store, title: string, info: PlaylistInfo)
    ensures var steps := SaveTrace(s, title, info);
      && (forall i :: 0 <= i < |steps| - 1 ==> !CheckForPlaylistCache(steps[i], title))
      && CheckForPlaylistCache(steps[|steps| - 1], title)
  {
    CacheFileNamesDistinct(title);
    var steps := SaveTrace(s, title, info);
    var items, meta := CacheFile(title, CurrentItems), CacheFile(title, CurrentMetadata);
    var itemsOld, metaOld := CacheFile(title, OldItems), CacheFile(title, OldMetadata);
    var s1 := RemoveFile(s, itemsOld);
    var s2 := RemoveFile(s1, metaOld);
    var s3 := RenameFile(s2, items, itemsOld);
    var s4 := RenameFile(s3, meta, metaOld);
    var itemSteps := WriteGeneration(s4, items, itemsOld, ItemsTable(info.items));
    var t := itemSteps[|itemSteps| - 1];
    var metaSteps := WriteGeneration(t, meta, metaOld, MetadataTable(info.Meta()));
    assert steps == [s1, s2, s3, s4] + itemSteps + metaSteps;
    // The stale previous tables are gone first, then the current ones are moved away ...
    assert itemsOld !in s1 && itemsOld !in s2 && items !in s3 && items !in s4;
    // ... writing the items leaves the moved-away current metadata absent ...
    WriteGenerationKeepsAbsent(s4, items, itemsOld, ItemsTable(info.items), meta);
    // ... and the current metadata and its previous copy coexist only after the last write.
    WriteGenerationIsHidden(t, meta, metaOld, MetadataTable(info.Meta()));
    forall i | 0 <= i < |steps| - 1
      ensures !CheckForPlaylistCache(steps[i], title)
    {
      if 4 <= i < 4 + |itemSteps| {
        assert steps[i] == itemSteps[i - 4];
      } else if 4 + |itemSteps| <= i {
        assert steps[i] == metaSteps[i - 4 - |itemSteps|];
      }
    }
    assert steps[|steps| - 1] == metaSteps[|metaSteps| - 1];
  }

  /** Writing one table's generations never creates an unrelated file. */
  lemma WriteGenerationKeepsAbsent(s: Store, current: string, previous: string, e: Entry, other: string)
    requires current != previous && other != current && other != previous && other !in s
    ensures forall j :: 0 <= j < |WriteGeneration(s, current, previous, e)| ==> other !in WriteGeneration(s, current, previous, e)[j]
  {
  }

  /** Before its last step, a generation write never has both of its tables present. */
  lemma WriteGenerationIsHidden(s: Store, current: string, previous: string, e: Entry)
    requires current != previous
    ensures var steps := WriteGeneration(s, current, previous, e);
      forall j :: 0 <= j < |steps| - 1 ==> current !in steps[j] || previous !in steps[j]
  {
  }

  /** After any save the existence check holds. */
  lemma CheckAfterSave(s: Store, title: string, info: PlaylistInfo)
    ensures CheckForPlaylistCache(Save(s, title, info), title)
  {
  }

  /** Reading the current generation after a save returns the saved snapshot unchanged. */
  lemma LoadAfterSave(s: Store, title: string, info: PlaylistInfo)
    ensures Load(Save(s, title, info), title, false, false) == Some(info)
  {
  }

  /** A first save (no current tables yet) leaves both generations holding the snapshot. */
  lemma FirstSaveWritesBothGenerations(s: Store, title: string, info: PlaylistInfo)
    requires CacheFile(title, CurrentItems) !in s && CacheFile(title, CurrentMetadata) !in s
    ensures Load(Save(s, title, info), title, true, false) == Some(info)
    ensures Load(Save(s, title, info), title, false, false) == Some(info)
  {
  }

  /** A save over an existing current generation turns it into the previous generation. */
  lemma SaveRotatesCurrentToOld(s: Store, title: string, info: PlaylistInfo)
    requires CacheFile(title, CurrentItems) in s && CacheFile(title, CurrentMetadata) in s
    ensures Load(Save(s, title, info), title, true, false) == Load(s, title, false, false)
  {
  }

  /** Two consecutive saves leave the first as the previous and the second as the current generation. */
  lemma TwoSavesRotate(s: Store, title: string, first: PlaylistInfo, second: PlaylistInfo)
    ensures var r := Save(Save(s, title, first), title, second);
      Load(r, title, true, false) == Some(first) && Load(r, title, false, false) == Some(second)
  {
  }

  /** Garbage collection keeps the whole cache of a listed playlist. */
  lemma DeleteKeepsListed(s: Store, playlists: seq<string>, title: string, loadOld: bool)
    requires title in playlists
    ensures CheckForPlaylistCache(DeleteOldCache(s, playlists, false), title) == CheckForPlaylistCache(s, title)
    ensures Load(DeleteOldCache(s, playlists, false), title, loadOld, false) == Load(s, title, loadOld, false)
  {
  }

  /**
   Garbage collection removes the cache of a playlist whose sanitized name matches
   no listed title, as long as its files are regular files.
   */
  lemma {:induction false} DeleteRemovesUnlisted(s: Store, playlists: seq<string>, title: string)
    requires forall t :: t in playlists ==> Sanitize(t) != Sanitize(title)
    requires forall a: Artifact :: CacheFile(title, a) in s ==> !s[CacheFile(title, a)].NotAFile?
    ensures CacheFiles(title) !! DeleteOldCache(s, playlists, false).Keys
  {
    var r := DeleteOldCache(s, playlists, false);
    forall k | k in CacheFiles(title) && k in r
      ensures false
    {
      var t :| t in playlists && k in CacheFiles(t);
      CacheFilesShared(t, title);
    }
  }
}

=== FILE: wrappers.dfy ===
/** An optional value, shared by the cache and reconciler modules. */
module Wrappers {

  /** A value that may be missing: a cache read that found nothing returns None. */
  datatype Option<+T> = None | Some(value: T)
}
